=== FILE: README.md ===
# Bulk flat-file loader: line tokenizing and value-list normalization

`bulk-ff.cs` is a script task that loads delimited text files into a staging
table. Each line after a file's header becomes one SQL insert statement.
This project models the pure part of that work in Dafny:

- `splitCSV`: a quote-aware two-state machine that cuts a comma-delimited line
  into columns. Quotes are optional. `""` inside a quoted section is one `"`.
  A `"` closes the section only before a comma or at the end of the line.
  An unterminated quote is not an error.
- `splitDefault`: a plain split on any other delimiter, with no quoting.
- `normalize`: every column becomes a single-quoted SQL literal with `'`
  doubled, and the literals are joined by commas.
- The per-file row loop: the `:apos` / `:comma` clean-up, skipping the
  header, and building one insert statement per line.

Modules:

- `Wrappers`: `Option` and `Result`.
- `Strings`: the .NET string operations the code uses (`Split`, `Join`,
  `Replace`), written over `seq<char>`, with the facts proved about them.
- `Tokenizer`: `splitCSV` and `splitDefault`.
  - `Scan` runs the state machine over the unread rest of the line.
  - `SplitCsvLoop` keeps the source's index loop and its `i += 1` skip, and
    is proved to compute the same thing.
- `Normalizer`: `normalize`.
- `Loader`: the row loop.

The tokenizers, `normalize` and the quote escaping are each proved to agree
with an independent partner definition:

- the naive split `SplitOn` against `Join`, including uniqueness;
- CSV writers against `splitCSV` (round trips): `EncodeRowAs`, which
  quotes any chosen fields and always those holding `"` or `,`, with its
  two extremes `EncodeRow`, which quotes every field, and `EncodeRowMin`,
  which quotes only the fields that must be;
- a reader of SQL literal lists, `ParseLiterals`, against `normalize` (round
  trip), and against the file name appended by the row loop (if and only if
  the name holds no `'`);
- `Undouble` against quote doubling.

The `:apos` / `:comma` clean-up has no partner definition. It is described
only by two facts: a line without `:` is unchanged, and no line grows.

## Model

| member | source | states |
|---|---|---|
| Tokenizer.SplitCsv | bulk-ff.cs:92-137 | Tokenizing never fails and always gives at least one column; the empty line gives one empty column; the columns plus their separators are never longer than the line |
| Tokenizer.SplitCsvLoop | bulk-ff.cs:92-137 | The index loop with the doubled-quote skip computes exactly the columns of the suffix state machine |
| Tokenizer.ScanBounds | bulk-ff.cs:97-135 | A run of the machine only appends to the columns already emitted, always adds the final column, and emits no more text than it reads |
| Tokenizer.SplitCsvWithoutQuotes | bulk-ff.cs:100-114 | On a line with no `"`, the CSV split equals the plain comma split: one column more than there are commas, and the columns joined by commas give the line back |
| Tokenizer.ScanQuotedField | bulk-ff.cs:116-131 | Inside a quoted section a doubled quote reads as one quote, commas are kept, and the quote before a comma or the end closes the section |
| Tokenizer.SplitCsvEncodeRow | bulk-ff.cs:92-137 | Round trip: any non-empty row written as quoted fields with inner quotes doubled is read back as exactly that row |
| Tokenizer.SplitCsvMinRoundTrip | bulk-ff.cs:92-137 | Round trip for mixed rows: any non-empty row written with only the columns holding `"` or `,` quoted (inner quotes doubled) and the others plain is read back as exactly that row |
| Tokenizer.SplitCsvAnyQuotingRoundTrip | bulk-ff.cs:92-137 | Round trip for any quoting: any non-empty row written with any choice of which fields to quote, as long as the fields holding `"` or `,` are quoted, is read back as exactly that row |
| Tokenizer.SplitCsvNeedlessQuoteExample | bulk-ff.cs:100-135 | A field quoted without need reads as its content: `"a",b` gives `a` and `b` |
| Tokenizer.SplitCsvUnterminated | bulk-ff.cs:116-135 | Leniency after quoted columns: after a row written as quoted fields, a comma and a quote that never closes make the text after the quote, commas included and doubled quotes read as one, the last column |
| Tokenizer.SplitCsvUnterminatedAfterPlain | bulk-ff.cs:100-135 | Leniency after unquoted columns: quote-free columns, then a comma and a quote that never closes, give the plain comma split of those columns followed by the text after the quote, doubled quotes read as one, as the last column |
| Tokenizer.SplitCsvUnterminatedExample | bulk-ff.cs:100-135 | `a,"b,c` gives `a` and `b,c` |
| Tokenizer.SplitCsvOpenQuote | bulk-ff.cs:102-135 | A line that opens a quote at its start and never closes it is one column: the rest of the line with its doubled quotes read as one |
| Tokenizer.ScanOpenDoubled | bulk-ff.cs:116-135 | In a quoted section that never closes, every character up to the end is kept, commas included, and each doubled quote reads as one |
| Tokenizer.SplitCsvUnterminatedDoubledExample | bulk-ff.cs:123-135 | `a,"b""c` gives `a` and `b"c` |
| Tokenizer.SplitCsvPlainExample | bulk-ff.cs:106-110 | `a,b,c` gives `a`, `b`, `c` |
| Tokenizer.SplitCsvQuotedCommaExample | bulk-ff.cs:116-122 | `a,"b,c",d` gives `a`, `b,c`, `d` |
| Tokenizer.SplitCsvDoubledQuoteExample | bulk-ff.cs:123-127 | `a,"b""c",d` gives `a`, `b"c`, `d` |
| Tokenizer.SplitCsvMidColumnQuoteExample | bulk-ff.cs:102-105 | A quote in the middle of a column opens a quoted section that runs to the end: `ab"c,d` gives the single column `abc,d` |
| Tokenizer.SplitCsvLoneQuoteExample | bulk-ff.cs:128-131 | A quote inside a quoted section followed by neither a comma nor a quote is kept: `"a"b,c` gives the single column `a"b,c` |
| Tokenizer.SplitDefault | bulk-ff.cs:139-147 | The pieces number one more than the occurrences of the delimiter, contain no delimiter, and joined by it give the line back |
| Tokenizer.SplitDefaultUnique | bulk-ff.cs:142 | Any non-empty list of delimiter-free pieces that joins to the line is the split of the line |
| Tokenizer.SplitDefaultExamples | bulk-ff.cs:142 | `a;b;c` splits into three pieces; quotes do not protect the delimiter: `"a;b";c` gives `"a`, `b"`, `c` |
| Strings.JoinSplitOn | bulk-ff.cs:142 | Joining the pieces of a split with the delimiter gives back the string |
| Strings.SplitOnJoin | bulk-ff.cs:142 | Splitting the join of delimiter-free pieces gives back the pieces |
| Strings.ReplaceDouble | bulk-ff.cs:155 | Replacing `'` by `''` doubles every quote and nothing else |
| Strings.DoubleLength | bulk-ff.cs:155 | Doubling lengthens by one character per quote, and leaves a string with no quote unchanged |
| Strings.UndoubleDouble | bulk-ff.cs:155 | Reading every doubled quote as one quote undoes the doubling |
| Normalizer.Columns | bulk-ff.cs:151 | There is always a column; for a delimiter other than a comma, or a line without `"`, the columns are the delimiter-free pieces that join back to the line |
| Normalizer.Literal | bulk-ff.cs:155 | A column's literal starts and ends with `'` and is longer than the column by two plus its number of quotes |
| Normalizer.LiteralUndouble | bulk-ff.cs:155 | The inside of a column's literal, with doubled quotes read as one, is the column |
| Normalizer.ParseLiteralsJoined | bulk-ff.cs:152-158 | A SQL reader of the comma-joined literals of any non-empty row sees that row back, one value per column |
| Normalizer.NormalizeReadsBack | bulk-ff.cs:149-159 | A SQL reader of a normalized line sees exactly the line's columns, however many quotes or commas they hold |
| Normalizer.ReadLiteralBodyInverse | bulk-ff.cs:155 | Whatever the literal reader reads, the text it consumed is the value with its quotes doubled, then a closing quote |
| Normalizer.ParseSingleLiteral | bulk-ff.cs:155 | The only text a SQL reader reads as the single value `v` is the literal that the normalizer writes for `v` |
| Normalizer.NormalizeExample | bulk-ff.cs:149-159 | `O'Brien,5` with a comma delimiter normalizes to `'O''Brien','5'` |
| Loader.UnmaskPlain | bulk-ff.cs:209 | A line with no `:` passes the clean-up unchanged |
| Loader.UnmaskShrinks | bulk-ff.cs:209 | The clean-up never lengthens a line |
| Loader.ValueListRoundTrip | bulk-ff.cs:214-216 | When the file name holds no `'`, a SQL reader of a row's value list sees the row's columns followed by the file name |
| Loader.QuoteInFileNameMisread | bulk-ff.cs:214-216 | The file name is pasted in unescaped: when it holds a `'`, the value list is not read back as the columns followed by the name |
| Loader.ValueListReadsBack | bulk-ff.cs:214-216 | A row's value list reads back as its columns followed by the file name if and only if the name holds no `'` |
| Loader.DoubledQuoteInFileNameExample | bulk-ff.cs:214-216 | With the file name `x''y` the list reads, but the last value is `x'y` |
| Loader.CommaInFileNameExample | bulk-ff.cs:214-216 | With the file name `x','y` the list reads, but with one value too many: `x` and `y` |
| Loader.Rows | bulk-ff.cs:209-221 | The statements for a run of data lines are one per line, in order, each the insert statement of that line's cleaned-up, normalized values tagged with the file name |
| Loader.InsertStatements | bulk-ff.cs:199-224 | The header yields nothing and the later lines yield exactly their statements, in order; an empty delimiter setting fails exactly when the file has a second line |

## Left out

- Database access: opening the connection, executing the statements, and the
  transaction. The model produces the statement texts only.
- File I/O: listing the source folder, reading lines with `StreamReader`
  (the model takes the file's lines as a sequence), moving the file to the
  archive, and writing the log files.
- The `Parallel.ForEach` over files, `loopState.Break()`, and the shared
  `success` flag and task result. These are concurrency and reporting, not
  data transformation.
- Timing (`DateTime.Now`) and the timestamp in archive and log names.
- Reading the package variables (`Dts.Variables`). They become parameters of
  `InsertStatements`: the table, the delimiter setting and the file name.
- Loader.InsertStatements: an exception on a row after the first would leave
  earlier statements already executed. The model's only failure, an empty
  delimiter setting, happens on the first data row, before any statement runs.
  So `Err` carries no statements, and no other database or I/O failure is
  modelled.
- Loader.InsertStatements: the source's line counter is a 32-bit `int`
  whose increment is not overflow-checked. After the line at index 2^31 - 1 it wraps
  to the most negative `int`. The next 2^31 + 1 lines are then skipped as if
  they were headers, and inserts resume once the counter is positive again.
  The model's counter is unbounded and ignores this wrap-around.
- Loader.InsertStatements: a Dafny `char` is a whole Unicode scalar value,
  while a C# `char` is one UTF-16 code unit. The delimiter is the first
  `char` of the setting (bulk-ff.cs:215). For a setting starting with a
  character outside the Basic Multilingual Plane, the source takes only its
  high surrogate and splits lines at that code unit, also inside other
  characters sharing it. The model takes the whole character and splits only
  at it. Every other character the core compares (`"`, `,`, `'`, `:apos`,
  `:comma`) is ASCII, where the two agree.
- Column width inference and generation of the table definition. The source
  file contains no code for them.
- Normalizer.Normalize: its property is stated by `NormalizeReadsBack` and
  the example rather than on the function itself.
- Tokenizer.SplitCsv: the round trip is stated for rows whose fields are
  quoted whenever they hold `"` or `,`, any other field quoted or not
  (`SplitCsvAnyQuotingRoundTrip`). A field left plain while holding `"` or
  `,` is not round-tripped; the examples show what the tokenizer does then.
=== FILE: loader.dfy ===
/**
 The pure part of the per-file row loop of the script task's entry point:
 each line read from a file after the first becomes one insert statement
 whose values are the normalized line followed by the file's name.
 */
module Loader {
  import opened Wrappers
  import opened Strings
  import opened Normalizer

  /** Why a file's rows yield no statements. */
  datatype LoadError =
    /** The configured delimiter is empty, so taking its first character fails. */
    | NoDelimiter

  /**
   The clean-up applied to every line before it is split: the spreadsheet
   placeholders `:apos` and `:comma` become `'` and `,`, in that order.
   */
  function Unmask(line: string): string
  {
    Replace(Replace(line, ":apos", "'"), ":comma", ",")
  }

  /** A line with no `:` passes the clean-up unchanged. */
  lemma UnmaskPlain(line: string)
    requires ':' !in line
    ensures Unmask(line) == line
  {
    ReplaceAbsent(line, ":apos", "'");
    ReplaceAbsent(line, ":comma", ",");
  }

  /** The clean-up never lengthens a line. */
  lemma UnmaskShrinks(line: string)
    ensures |Unmask(line)| <= |line|
  {
    ReplaceShrinks(line, ":apos", "'");
    ReplaceShrinks(Replace(line, ":apos", "'"), ":comma", ",");
  }

  /** The value list of one row: the normalized line, then the file name as one more literal. */
  function ValueList(line: string, delimiter: char, fileName: string): string
  {
    Normalize(line, delimiter) + ",'" + fileName + "'"
  }

  /** The text of one insert statement into `table`. */
  function InsertStatement(table: string, values: string): string
  {
    "Insert into " + table + " Values (" + values + ")"
  }

  /** The statement for one data line: cleaned up, normalized, and tagged with the file name. */
  function RowStatement(table: string, line: string, delimiter: char, fileName: string): string
  {
    InsertStatement(table, ValueList(Unmask(line), delimiter, fileName))
  }

  /** The statements for a run of data lines, one per line, in order. */
  function Rows(table: string, lines: seq<string>, delimiter: char, fileName: string): (r: seq<string>)
    ensures |r| == |lines|
    ensures forall k :: 0 <= k < |lines| ==> r[k] == RowStatement(table, lines[k], delimiter, fileName)
  {
    if |lines| == 0 then []
    else Rows(table, lines[..|lines| - 1], delimiter, fileName) + [RowStatement(table, lines[|lines| - 1], delimiter, fileName)]
  }

  /** One more data line adds its statement at the end. */
  lemma RowsSnoc(table: string, lines: seq<string>, i: nat, delimiter: char, fileName: string)
    requires 1 <= i < |lines|
    ensures Rows(table, lines[1..i + 1], delimiter, fileName)
         == Rows(table, lines[1..i], delimiter, fileName) + [RowStatement(table, lines[i], delimiter, fileName)]
  {
  }

  /** A row's value list is its normalized line, a comma, and the file name between quotes. */
  lemma ValueListShape(line: string, delimiter: char, fileName: string)
    ensures ValueList(line, delimiter, fileName)
         == Join(Map(Literal, Columns(line, delimiter)), ',') + [','] + (['\''] + fileName + ['\''])
  {
  }

  /**
   The file name is not escaped: when it holds no `'`, a SQL reader of the
   value list sees the row's columns followed by the file name, so every
   row carries one value more than it has columns.
   */
  lemma ValueListRoundTrip(line: string, delimiter: char, fileName: string)
    requires '\'' !in fileName
    ensures ParseLiterals(ValueList(line, delimiter, fileName)) == Some(Columns(line, delimiter) + [fileName])
  {
    var cols := Columns(line, delimiter);
    assert Literal(fileName) == "'" + fileName + "'" by {
      ReplaceAbsent(fileName, "'", "''");
    }
    ParseLastLiteral(fileName);
    ParseLiteralsAppend(cols, Literal(fileName));
    ValueListShape(line, delimiter, fileName);
  }

  /**
   A file name holding a `'` is not read back as itself: the list either
   does not read, or reads as other values than the columns and the name.
   */
  lemma QuoteInFileNameMisread(line: string, delimiter: char, fileName: string)
    requires '\'' in fileName
    ensures ParseLiterals(ValueList(line, delimiter, fileName)) != Some(Columns(line, delimiter) + [fileName])
  {
    var cols := Columns(line, delimiter);
    var t := ['\''] + fileName + ['\''];
    ValueListShape(line, delimiter, fileName);
    ParseLiteralsAppend(cols, t);
    ParseSingleLiteral(t, fileName);
    CountBounds(fileName, '\'');
    if ParseLiterals(t).Some? {
      var vs := ParseLiterals(t).value;
      assert (cols + vs)[|cols|..] == vs;
      assert (cols + [fileName])[|cols|..] == [fileName];
    }
  }

  /** The value list reads back as the columns and the file name exactly when the name holds no `'`. */
  lemma ValueListReadsBack(line: string, delimiter: char, fileName: string)
    ensures ParseLiterals(ValueList(line, delimiter, fileName)) == Some(Columns(line, delimiter) + [fileName])
        <==> '\'' !in fileName
  {
    if '\'' in fileName {
      QuoteInFileNameMisread(line, delimiter, fileName);
    } else {
      ValueListRoundTrip(line, delimiter, fileName);
    }
  }

  /** A doubled quote in the file name reads as one: `x''y` comes back as `x'y`. */
  lemma DoubledQuoteInFileNameExample()
    ensures ParseLiterals(ValueList("a", ';', "x''y")) == Some(["a", "x'y"])
  {
    var t := ['\''] + "x''y" + ['\''];
    assert t == Literal("x'y") by {
      ReplaceDouble("x'y", '\'');
      assert Double("x'y", '\'') == "x''y";
    }
    calc {
      ParseLiterals(ValueList("a", ';', "x''y"));
      { ValueListShape("a", ';', "x''y"); NormalizeOneColumnExample(); }
      ParseLiterals(Join(Map(Literal, ["a"]), ',') + [','] + t);
      { ParseLastLiteral("x'y"); ParseLiteralsAppend(["a"], t); }
      Some(["a"] + ["x'y"]);
      { assert ["a"] + ["x'y"] == ["a", "x'y"]; }
      Some(["a", "x'y"]);
    }
  }

  /** A quote-comma-quote in the file name splits it: `x','y` comes back as two values. */
  lemma CommaInFileNameExample()
    ensures ParseLiterals(ValueList("a", ';', "x','y")) == Some(["a", "x", "y"])
  {
    var t := ['\''] + "x','y" + ['\''];
    assert t == Literal("x") + [','] + Literal("y") by {
      ReplaceAbsent("x", "'", "''");
      ReplaceAbsent("y", "'", "''");
    }
    calc {
      ParseLiterals(t);
      { ParseLastLiteral("y"); ParseFirstLiteral("x", Literal("y")); }
      Some(["x"] + ["y"]);
    }
    calc {
      ParseLiterals(ValueList("a", ';', "x','y"));
      { ValueListShape("a", ';', "x','y"); NormalizeOneColumnExample(); }
      ParseLiterals(Join(Map(Literal, ["a"]), ',') + [','] + t);
      { ParseLiteralsAppend(["a"], t); }
      Some(["a"] + (["x"] + ["y"]));
      { assert ["a"] + (["x"] + ["y"]) == ["a", "x", "y"]; }
      Some(["a", "x", "y"]);
    }
  }

  /**
   The row loop over the lines of one file, named `fileName`, whose
   configured delimiter setting is `delimiter`: the first line is the header
   and yields nothing; every later line, after the clean-up, yields exactly
   one statement, in order. The first character of the delimiter setting is
   only taken once a second line is reached, so an empty setting fails
   exactly when the file has one.
   */
  method InsertStatements(lines: seq<string>, table: string, delimiter: string, fileName: string)
    returns (r: Result<seq<string>, LoadError>)
    ensures r.Err? <==> |lines| >= 2 && |delimiter| == 0
    ensures r.Ok? ==> r.value == if |lines| <= 1 then [] else Rows(table, lines[1..], delimiter[0], fileName)
  {
    var statements: seq<string> := [];
    var counter := 0;
    while counter < |lines|
      invariant 0 <= counter <= |lines|
      invariant |statements| == if counter == 0 then 0 else counter - 1
      invariant counter >= 2 ==> |delimiter| > 0
      invariant counter >= 2 ==> statements == Rows(table, lines[1..counter], delimiter[0], fileName)
    {
      if counter > 0 {
        if |delimiter| == 0 {
          return Err(NoDelimiter);
        }
        RowsSnoc(table, lines, counter, delimiter[0], fileName);
        statements := statements + [RowStatement(table, lines[counter], delimiter[0], fileName)];
      }
      counter := counter + 1;
    }
    if |lines| >= 2 {
      assert lines[1..counter] == lines[1..];
    }
    return Ok(statements);
  }
}

=== FILE: normalizer.dfy ===
/**
 `normalize`: a line becomes the value list of an insert statement. Each
 column is written as a single-quoted SQL string literal with its single
 quotes doubled, and the literals are joined by commas.
 */
module Normalizer {
  import opened Wrappers
  import opened Strings
  import Tokenizer

  /**
   The columns of `line`: quote-aware for a comma delimiter, a plain split for
   any other. Without `"` in the line both readings agree: the columns are
   the delimiter-free pieces that join back to the line.
   */
  function Columns(line: string, delimiter: char): (cols: seq<string>)
    ensures |cols| >= 1
    ensures delimiter != ',' || '"' !in line ==> Join(cols, delimiter) == line
    ensures delimiter != ',' || '"' !in line ==> |cols| == Count(line, delimiter) + 1
    ensures delimiter != ',' || '"' !in line ==> forall k :: 0 <= k < |cols| ==> delimiter !in cols[k]
  {
    if delimiter == ',' then
      if '"' !in line then
        Tokenizer.SplitCsvWithoutQuotes(line);
        Tokenizer.SplitCsv(line)
      else Tokenizer.SplitCsv(line)
    else Tokenizer.SplitDefault(line, delimiter)
  }

  /** `col.Replace("'", "''")`. */
  function Escape(col: string): string
  {
    Replace(col, "'", "''")
  }

  /** One column as a SQL string literal: its quotes doubled, wrapped in `'`. */
  function Literal(col: string): (lit: string)
    ensures |lit| == |col| + Count(col, '\'') + 2
    ensures lit[0] == '\'' && lit[|lit| - 1] == '\''
  {
    ReplaceDouble(col, '\'');
    DoubleLength(col, '\'');
    "'" + Escape(col) + "'"
  }

  /** Un-doubling the inside of a column's literal gives the column back. */
  lemma LiteralUndouble(col: string)
    ensures Undouble(Literal(col)[1..|Literal(col)| - 1], '\'') == col
  {
    ReplaceDouble(col, '\'');
    UndoubleDouble(col, '\'');
    var lit := Literal(col);
    assert lit[1..|lit| - 1] == Double(col, '\'');
  }

  /** `normalize(line, delimiter)`: the literals of the columns joined by commas. */
  function Normalize(line: string, delimiter: char): string
  {
    Join(Map(Literal, Columns(line, delimiter)), ',')
  }

  /**
   A SQL reader of a normalized line sees exactly the line's columns, one
   value each, whatever quotes or commas they hold.
   */
  lemma NormalizeReadsBack(line: string, delimiter: char)
    ensures ParseLiterals(Normalize(line, delimiter)) == Some(Columns(line, delimiter))
  {
    ParseLiteralsJoined(Columns(line, delimiter));
  }

  /**
   Reads the inside of a SQL string literal, after its opening quote: `''`
   stands for one `'`, and a single `'` closes the literal. Yields the value
   and the text after the closing quote, or `None` when the literal never
   closes.
   */
  function ReadLiteralBody(s: string, acc: string): (r: Option<(string, string)>)
    ensures r.Some? ==> |r.value.1| < |s|
    decreases |s|
  {
    if |s| == 0 then None
    else if s[0] == '\'' then
      if |s| >= 2 && s[1] == '\'' then ReadLiteralBody(s[2..], acc + ['\''])
      else Some((acc, s[1..]))
    else ReadLiteralBody(s[1..], acc + [s[0]])
  }

  /**
   Reads a value list of SQL string literals separated by commas, as the
   database reads the inside of `Values ( … )`; `None` when it is not one.
   */
  function ParseLiterals(s: string): Option<seq<string>>
    decreases |s|
  {
    if |s| == 0 || s[0] != '\'' then None
    else match ReadLiteralBody(s[1..], "")
      case None => None
      case Some((v, rest)) =>
        if |rest| == 0 then Some([v])
        else if rest[0] != ',' then None
        else match ParseLiterals(rest[1..])
          case None => None
          case Some(vs) => Some([v] + vs)
  }

  /** One column character as written in a literal (a quote doubled) reads as itself. */
  lemma ReadEscapedChar(c: char, u: string, acc: string)
    ensures ReadLiteralBody((if c == '\'' then ['\'', '\''] else [c]) + u, acc) == ReadLiteralBody(u, acc + [c])
  {
  }

  /** A literal's body is read back up to its closing quote, whatever follows unless it is a quote. */
  lemma {:induction false} ReadEscaped(col: string, t: string, acc: string)
    requires t == [] || t[0] != '\''
    ensures ReadLiteralBody(Double(col, '\'') + ['\''] + t, acc) == Some((acc + col, t))
    decreases |col|
  {
    if |col| == 0 {
      assert Double(col, '\'') + ['\''] + t == ['\''] + t;
      assert acc + col == acc;
    } else {
      var c := col[0];
      var u := Double(col[1..], '\'') + ['\''] + t;
      calc {
        ReadLiteralBody(Double(col, '\'') + ['\''] + t, acc);
        { assert Double(col, '\'') + ['\''] + t == (if c == '\'' then ['\'', '\''] else [c]) + u; }
        ReadLiteralBody((if c == '\'' then ['\'', '\''] else [c]) + u, acc);
        { ReadEscapedChar(c, u, acc); }
        ReadLiteralBody(u, acc + [c]);
        { ReadEscaped(col[1..], t, acc + [c]); }
        Some((acc + [c] + col[1..], t));
        { assert acc + [c] + col[1..] == acc + col; }
        Some((acc + col, t));
      }
    }
  }

  /** A literal followed by the end or by a comma is read as its column. */
  lemma ReadLiteral(col: string, t: string)
    requires t == [] || t[0] == ','
    ensures |Literal(col) + t| > 0 && (Literal(col) + t)[0] == '\''
    ensures ReadLiteralBody((Literal(col) + t)[1..], "") == Some((col, t))
  {
    ReplaceDouble(col, '\'');
    var s := Literal(col) + t;
    assert s == ['\''] + (Double(col, '\'') + ['\''] + t);
    ReadEscaped(col, t, "");
    assert "" + col == col;
  }

  /** A literal at the end of the value list is its last value. */
  lemma ParseLastLiteral(col: string)
    ensures ParseLiterals(Literal(col)) == Some([col])
  {
    ReadLiteral(col, []);
    assert Literal(col) + [] == Literal(col);
  }

  /**
   A literal followed by a comma is the first value of the list after it;
   when what follows the comma does not read, neither does the whole.
   */
  lemma ParseFirstLiteral(col: string, t: string)
    ensures ParseLiterals(Literal(col) + [','] + t)
         == if ParseLiterals(t).Some? then Some([col] + ParseLiterals(t).value) else None
  {
    ReadLiteral(col, [','] + t);
    assert Literal(col) + [','] + t == Literal(col) + ([','] + t);
    assert ([','] + t)[1..] == t;
  }

  /** The joined literals of a row with two or more columns start with the first literal and a comma. */
  lemma JoinLiteralsCons(cols: seq<string>)
    requires |cols| >= 2
    ensures Join(Map(Literal, cols), ',') == Literal(cols[0]) + [','] + Join(Map(Literal, cols[1..]), ',')
  {
  }

  /**
   Round trip: reading the joined literals of any non-empty row gives the
   row back, so every column stays one value however many quotes or commas
   it holds.
   */
  lemma {:induction false} ParseLiteralsJoined(cols: seq<string>)
    requires |cols| >= 1
    ensures ParseLiterals(Join(Map(Literal, cols), ',')) == Some(cols)
    decreases |cols|
  {
    if |cols| == 1 {
      assert Join(Map(Literal, cols), ',') == Literal(cols[0]);
      ParseLastLiteral(cols[0]);
      assert cols == [cols[0]];
    } else {
      JoinLiteralsCons(cols);
      ParseLiteralsJoined(cols[1..]);
      ParseFirstLiteral(cols[0], Join(Map(Literal, cols[1..]), ','));
      assert [cols[0]] + cols[1..] == cols;
    }
  }

  /**
   Reading joined literals followed by a comma and more literals gives the
   row followed by the rest; when the rest does not read, neither does the
   whole.
   */
  lemma {:induction false} ParseLiteralsAppend(cols: seq<string>, t: string)
    requires |cols| >= 1
    ensures ParseLiterals(Join(Map(Literal, cols), ',') + [','] + t)
         == if ParseLiterals(t).Some? then Some(cols + ParseLiterals(t).value) else None
    decreases |cols|
  {
    if |cols| == 1 {
      assert Join(Map(Literal, cols), ',') == Literal(cols[0]);
      ParseFirstLiteral(cols[0], t);
      assert cols == [cols[0]];
    } else {
      var tail := Join(Map(Literal, cols[1..]), ',');
      JoinLiteralsCons(cols);
      Concat4(Literal(cols[0]), tail, t);
      ParseLiteralsAppend(cols[1..], t);
      ParseFirstLiteral(cols[0], tail + [','] + t);
      if ParseLiterals(t).Some? {
        var vs := ParseLiterals(t).value;
        calc {
          ParseLiterals(Join(Map(Literal, cols), ',') + [','] + t);
          ParseLiterals(Literal(cols[0]) + [','] + (tail + [','] + t));
          Some([cols[0]] + (cols[1..] + vs));
          { assert [cols[0]] + (cols[1..] + vs) == cols + vs; }
          Some(cols + vs);
        }
      }
    }
  }

  /** Shifting one collected character `c` from the accumulator into the doubled text. */
  lemma DoubleShift(v: string, acc: string, c: char)
    requires |acc| + 1 <= |v| && v[..|acc| + 1] == acc + [c]
    ensures v[..|acc|] == acc
    ensures Double(v[|acc|..], '\'') == (if c == '\'' then ['\'', '\''] else [c]) + Double(v[|acc| + 1..], '\'')
  {
    assert v[..|acc|] == v[..|acc| + 1][..|acc|];
    assert v[|acc|..] == [c] + v[|acc| + 1..];
  }

  /**
   The reader of a literal's inside takes apart exactly what the writer
   produces: the value read, after what was already collected, doubled and
   closed by a quote, is the text consumed.
   */
  lemma {:induction false} ReadLiteralBodyInverse(s: string, acc: string)
    ensures ReadLiteralBody(s, acc).Some? ==>
              |acc| <= |ReadLiteralBody(s, acc).value.0|
              && ReadLiteralBody(s, acc).value.0[..|acc|] == acc
              && s == Double(ReadLiteralBody(s, acc).value.0[|acc|..], '\'') + ['\''] + ReadLiteralBody(s, acc).value.1
    decreases |s|
  {
    if |s| > 0 {
      if s[0] == '\'' && !(|s| >= 2 && s[1] == '\'') {
        assert acc[|acc|..] == [];
        assert s == ['\''] + s[1..];
      } else {
        var c, n := s[0], if s[0] == '\'' then 2 else 1;
        assert s[..n] == (if c == '\'' then ['\'', '\''] else [c]);
        assert ReadLiteralBody(s, acc) == ReadLiteralBody(s[n..], acc + [c]);
        ReadLiteralBodyInverse(s[n..], acc + [c]);
        var r := ReadLiteralBody(s[n..], acc + [c]);
        if r.Some? {
          DoubleShift(r.value.0, acc, c);
          assert s == s[..n] + s[n..];
        }
      }
    }
  }

  /** A value list that reads always has at least one value. */
  lemma ParseLiteralsNonEmpty(s: string)
    ensures ParseLiterals(s).Some? ==> |ParseLiterals(s).value| >= 1
  {
  }

  /** The only text read as the single value `v` is the literal of `v`. */
  lemma ParseSingleLiteral(s: string, v: string)
    ensures ParseLiterals(s) == Some([v]) ==> s == Literal(v)
  {
    if |s| > 0 && s[0] == '\'' {
      ReadLiteralBodyInverse(s[1..], "");
      var r := ReadLiteralBody(s[1..], "");
      if r.Some? {
        var rest := r.value.1;
        if |rest| > 0 && rest[0] == ',' {
          ParseLiteralsNonEmpty(rest[1..]);
        }
        if |rest| == 0 {
          ReplaceDouble(r.value.0, '\'');
          assert r.value.0[0..] == r.value.0;
          assert s == ['\''] + s[1..];
        }
      }
    }
  }

  /** Regrouping a concatenation around two commas. */
  lemma Concat4(a: string, b: string, c: string)
    ensures a + [','] + b + [','] + c == a + [','] + (b + [','] + c)
  {
  }

  /** The one-column line `a` under `;` normalizes to `'a'`. */
  lemma NormalizeOneColumnExample()
    ensures Columns("a", ';') == ["a"]
    ensures Join(Map(Literal, Columns("a", ';')), ',') == Literal("a")
  {
  }

  /** The comma-delimited example line has two plain columns. */
  lemma NormalizeExampleColumns()
    ensures Columns("O'Brien,5", ',') == ["O'Brien", "5"]
  {
    calc {
      Columns("O'Brien,5", ',');
      Tokenizer.Scan("O'Brien,5", false, "", []);
      { assert "O'Brien,5" == "O'Brien" + ([','] + ("5" + "")); }
      Tokenizer.Scan("O'Brien" + ([','] + ("5" + "")), false, "", []);
      { Tokenizer.ScanPlainField("O'Brien", [','] + ("5" + ""), "", []);
        assert "" + "O'Brien" == "O'Brien"; }
      Tokenizer.Scan([','] + ("5" + ""), false, "O'Brien", []);
      { assert [] + ["O'Brien"] == ["O'Brien"]; }
      Tokenizer.Scan("5" + "", false, "", ["O'Brien"]);
      { Tokenizer.ScanPlainField("5", "", "", ["O'Brien"]);
        assert "" + "5" == "5"; }
      ["O'Brien", "5"];
    }
  }

  /** The quote in `O'Brien` is doubled in its literal. */
  lemma NormalizeExampleLiteral()
    ensures Literal("O'Brien") == "'O''Brien'"
  {
  }

  /** A single quote in a column is doubled and the column wrapped in quotes. */
  lemma NormalizeExample()
    ensures Normalize("O'Brien,5", ',') == "'O''Brien','5'"
  {
    var cols := ["O'Brien", "5"];
    calc {
      Normalize("O'Brien,5", ',');
      { NormalizeExampleColumns(); }
      Join(Map(Literal, cols), ',');
      { JoinLiteralsCons(cols);
        assert cols[1..] == ["5"];
        assert Join(Map(Literal, ["5"]), ',') == Literal("5"); }
      Literal("O'Brien") + [','] + Literal("5");
      { NormalizeExampleLiteral();
        ReplaceDouble("5", '\'');
        assert Literal("5") == "'5'"; }
      "'O''Brien'" + [','] + "'5'";
      "'O''Brien','5'";
    }
  }
}

=== FILE: strings.dfy ===
/**
 The string primitives of the .NET library that the loader relies on
 (`String.Split(char)`, `String.Join`, `String.Replace`), written out over
 `seq<char>`, together with the facts about them the other modules use.
 */
module Strings {

  /** Number of occurrences of `c` in `s`. */
  function Count(s: string, c: char): nat
  {
    if |s| == 0 then 0
    else (if s[0] == c then 1 else 0) + Count(s[1..], c)
  }

  /** `c` occurs in `s` exactly when it is counted at least once, and never more often than `s` is long. */
  lemma {:induction false} CountBounds(s: string, c: char)
    ensures Count(s, c) <= |s|
    ensures Count(s, c) == 0 <==> c !in s
    decreases |s|
  {
    if |s| > 0 {
      CountBounds(s[1..], c);
      assert s == [s[0]] + s[1..];
    }
  }

  /** Sum of the lengths of `cols`. */
  function TotalLen(cols: seq<string>): nat
  {
    if |cols| == 0 then 0 else TotalLen(cols[..|cols| - 1]) + |cols[|cols| - 1]|
  }

  lemma TotalLenSnoc(cols: seq<string>, c: string)
    ensures TotalLen(cols + [c]) == TotalLen(cols) + |c|
  {
  }

  /** `f` applied to every element of `s`, in order. */
  function Map<A, B>(f: A -> B, s: seq<A>): (r: seq<B>)
    ensures |r| == |s|
  {
    if |s| == 0 then [] else [f(s[0])] + Map(f, s[1..])
  }

  /** `String.Join(sep, parts)`: the parts with `sep` between consecutive ones. */
  function Join(parts: seq<string>, sep: char): string
  {
    if |parts| == 0 then ""
    else if |parts| == 1 then parts[0]
    else parts[0] + [sep] + Join(parts[1..], sep)
  }

  /**
   `s.Split(d)`: the maximal runs of `s` between occurrences of `d`,
   empty runs included. There is always at least one piece.
   */
  function SplitOn(s: string, d: char): (r: seq<string>)
    ensures |r| == Count(s, d) + 1
    ensures forall k :: 0 <= k < |r| ==> d !in r[k]
  {
    if |s| == 0 then [""]
    else
      var rest := SplitOn(s[1..], d);
      if s[0] == d then [""] + rest
      else [[s[0]] + rest[0]] + rest[1..]
  }

  /** Joining the pieces of a split with the delimiter gives back the string. */
  lemma {:induction false} JoinSplitOn(s: string, d: char)
    ensures Join(SplitOn(s, d), d) == s
    decreases |s|
  {
    if |s| > 0 {
      JoinSplitOn(s[1..], d);
      var rest := SplitOn(s[1..], d);
      if s[0] == d {
        assert ([""] + rest)[1..] == rest;
        assert s == [d] + s[1..];
      } else if |rest| == 1 {
        assert s == [s[0]] + s[1..];
      } else {
        var r := SplitOn(s, d);
        assert r[1..] == rest[1..];
        assert Join(rest, d) == rest[0] + [d] + Join(rest[1..], d);
        assert s == [s[0]] + s[1..];
      }
    }
  }

  /** A character other than `d` is glued onto the first piece of what follows it. */
  lemma SplitOnCons(c: char, t: string, d: char)
    requires c != d
    ensures SplitOn([c] + t, d) == [[c] + SplitOn(t, d)[0]] + SplitOn(t, d)[1..]
  {
  }

  /** A prefix free of `d` is glued onto the first piece of what follows it. */
  lemma {:induction false} SplitOnPrefix(p: string, t: string, d: char)
    requires d !in p
    ensures SplitOn(p + t, d) == [p + SplitOn(t, d)[0]] + SplitOn(t, d)[1..]
    decreases |p|
  {
    var u := SplitOn(t, d);
    if |p| == 0 {
      assert p + t == t;
      assert p + u[0] == u[0];
      assert u == [u[0]] + u[1..];
    } else {
      var rest := SplitOn(p[1..] + t, d);
      calc {
        SplitOn(p + t, d);
        { assert p + t == [p[0]] + (p[1..] + t); }
        SplitOn([p[0]] + (p[1..] + t), d);
        { SplitOnCons(p[0], p[1..] + t, d); }
        [[p[0]] + rest[0]] + rest[1..];
        { SplitOnPrefix(p[1..], t, d); }
        [[p[0]] + (p[1..] + u[0])] + u[1..];
        { assert [p[0]] + (p[1..] + u[0]) == p + u[0]; }
        [p + u[0]] + u[1..];
      }
    }
  }

  /**
   Splitting is the unique inverse of joining: any non-empty list of pieces
   free of `d` is recovered by splitting their join on `d`.
   */
  lemma {:induction false} SplitOnJoin(parts: seq<string>, d: char)
    requires |parts| >= 1
    requires forall k :: 0 <= k < |parts| ==> d !in parts[k]
    ensures SplitOn(Join(parts, d), d) == parts
    decreases |parts|
  {
    if |parts| == 1 {
      SplitOnPrefix(parts[0], "", d);
      assert parts[0] + "" == parts[0];
    } else {
      var tail := Join(parts[1..], d);
      assert Join(parts, d) == parts[0] + ([d] + tail);
      SplitOnJoin(parts[1..], d);
      assert ([d] + tail)[1..] == tail;
      SplitOnPrefix(parts[0], [d] + tail, d);
      assert parts[0] + "" == parts[0];
    }
  }

  /**
   `s.Replace(pat, rep)`: occurrences of `pat`, found left to right without
   overlapping, each replaced by `rep`.
   */
  function Replace(s: string, pat: string, rep: string): string
    requires |pat| > 0
    decreases |s|
  {
    if |s| < |pat| then s
    else if s[..|pat|] == pat then rep + Replace(s[|pat|..], pat, rep)
    else [s[0]] + Replace(s[1..], pat, rep)
  }

  /** Where the pattern cannot start, replacing changes nothing. */
  lemma {:induction false} ReplaceAbsent(s: string, pat: string, rep: string)
    requires |pat| > 0
    requires pat[0] !in s
    ensures Replace(s, pat, rep) == s
    decreases |s|
  {
    if |s| >= |pat| {
      assert s[..|pat|][0] == s[0];
      ReplaceAbsent(s[1..], pat, rep);
      assert s == [s[0]] + s[1..];
    }
  }

  /** A replacement no longer than its pattern never lengthens the string. */
  lemma {:induction false} ReplaceShrinks(s: string, pat: string, rep: string)
    requires |pat| > 0
    requires |rep| <= |pat|
    ensures |Replace(s, pat, rep)| <= |s|
    decreases |s|
  {
    if |s| >= |pat| {
      if s[..|pat|] == pat {
        ReplaceShrinks(s[|pat|..], pat, rep);
      } else {
        ReplaceShrinks(s[1..], pat, rep);
      }
    }
  }

  /** `s` with every `q` written twice. */
  function Double(s: string, q: char): string
  {
    if |s| == 0 then ""
    else (if s[0] == q then [q, q] else [s[0]]) + Double(s[1..], q)
  }

  /** Doubling lengthens by one character per `q`, and leaves a string without `q` alone. */
  lemma {:induction false} DoubleLength(s: string, q: char)
    ensures |Double(s, q)| == |s| + Count(s, q)
    ensures q !in s ==> Double(s, q) == s
    decreases |s|
  {
    if |s| > 0 {
      DoubleLength(s[1..], q);
      assert s == [s[0]] + s[1..];
    }
  }

  /** Reads a doubled `q` as one `q`; every other character stands for itself. */
  function Undouble(e: string, q: char): string
  {
    if |e| == 0 then ""
    else if |e| >= 2 && e[0] == q && e[1] == q then [q] + Undouble(e[2..], q)
    else [e[0]] + Undouble(e[1..], q)
  }

  /** Undoubling inverts doubling. */
  lemma {:induction false} UndoubleDouble(s: string, q: char)
    ensures Undouble(Double(s, q), q) == s
    decreases |s|
  {
    if |s| > 0 {
      UndoubleDouble(s[1..], q);
      var e := Double(s, q);
      if s[0] == q {
        assert e == [q, q] + Double(s[1..], q);
        assert e[2..] == Double(s[1..], q);
      } else {
        assert e == [s[0]] + Double(s[1..], q);
        assert e[1..] == Double(s[1..], q);
      }
    }
  }

  /** Replacing a one-character pattern by two copies of it is doubling. */
  lemma {:induction false} ReplaceDouble(s: string, q: char)
    ensures Replace(s, [q], [q, q]) == Double(s, q)
    decreases |s|
  {
    if |s| > 0 {
      ReplaceDouble(s[1..], q);
      assert s[..1] == [s[0]];
    }
  }
}

=== FILE: tokenizer.dfy ===
/**
 The line tokenizers of the bulk loader: `splitCSV`, a quote-aware two-state
 machine for comma-delimited lines, and `splitDefault`, a plain split on any
 other delimiter.
 */
module Tokenizer {
  import opened Strings

  /**
   One run of the `splitCSV` state machine over the unread rest `s` of the
   line. `quoted` is the source's `escape` flag, `acc` the column being
   collected and `done` the columns already emitted.
   */
  function Scan(s: string, quoted: bool, acc: string, done: seq<string>): seq<string>
    decreases |s|
  {
    if |s| == 0 then done + [acc]
    else if !quoted then
      if s[0] == '"' then Scan(s[1..], true, acc, done)
      else if s[0] == ',' then Scan(s[1..], false, "", done + [acc])
      else Scan(s[1..], false, acc + [s[0]], done)
    else if s[0] == '"' && (|s| == 1 || s[1] == ',') then Scan(s[1..], false, acc, done)
    else if s[0] == '"' && s[1] == '"' then Scan(s[2..], true, acc + ['"'], done)
    else Scan(s[1..], true, acc + [s[0]], done)
  }

  /**
   A run only appends to the columns already emitted, always appends at
   least the final one, and every appended column together with the
   separator after it is paid for by input read.
   */
  lemma {:induction false} ScanBounds(s: string, quoted: bool, acc: string, done: seq<string>)
    ensures |Scan(s, quoted, acc, done)| > |done|
    ensures Scan(s, quoted, acc, done)[..|done|] == done
    ensures TotalLen(Scan(s, quoted, acc, done)) + |Scan(s, quoted, acc, done)|
         <= TotalLen(done) + |done| + |acc| + 1 + |s|
    decreases |s|
  {
    if |s| == 0 {
      TotalLenSnoc(done, acc);
      assert (done + [acc])[..|done|] == done;
    } else if !quoted {
      if s[0] == '"' {
        ScanBounds(s[1..], true, acc, done);
      } else if s[0] == ',' {
        TotalLenSnoc(done, acc);
        ScanBounds(s[1..], false, "", done + [acc]);
        var r := Scan(s[1..], false, "", done + [acc]);
        assert r[..|done|] == r[..|done| + 1][..|done|];
      } else {
        ScanBounds(s[1..], false, acc + [s[0]], done);
      }
    } else if s[0] == '"' && (|s| == 1 || s[1] == ',') {
      ScanBounds(s[1..], false, acc, done);
    } else if s[0] == '"' && s[1] == '"' {
      ScanBounds(s[2..], true, acc + ['"'], done);
    } else {
      ScanBounds(s[1..], true, acc + [s[0]], done);
    }
  }

  /**
   `splitCSV(line)`: never fails, yields at least one column (the empty line
   yields one empty column), and never emits more text than it reads.
   */
  function SplitCsv(line: string): (cols: seq<string>)
    ensures |cols| >= 1
    ensures line == "" ==> cols == [""]
    ensures TotalLen(cols) + |cols| - 1 <= |line|
  {
    ScanBounds(line, false, "", []);
    Scan(line, false, "", [])
  }

  /** `splitCSV` as the source writes it: an index loop with the `i += 1` skip. */
  method SplitCsvLoop(line: string) returns (buff: seq<string>)
    ensures buff == SplitCsv(line)
  {
    buff := [];
    var accum := "";
    var escape := false;
    var i := 0;
    while i < |line|
      invariant 0 <= i <= |line|
      invariant Scan(line[i..], escape, accum, buff) == SplitCsv(line)
    {
      var at := line[i];
      assert line[i..][0] == at && line[i..][1..] == line[i + 1..];
      if !escape {
        if at == '"' {
          escape := true;
        } else if at == ',' {
          buff := buff + [accum];
          accum := "";
        } else {
          accum := accum + [at];
        }
      } else {
        var end := i + 1 == |line|;
        if at == '"' && (end || line[i + 1] == ',') {
          escape := false;
        } else if at == '"' && line[i + 1] == '"' {
          assert line[i..][2..] == line[i + 2..];
          accum := accum + ['"'];
          i := i + 1;
        } else {
          accum := accum + [at];
        }
      }
      i := i + 1;
    }
    buff := buff + [accum];
  }

  /** `splitDefault(line, d)`: the pieces of `line` between occurrences of `d`, with no quoting. */
  function SplitDefault(line: string, d: char): (cols: seq<string>)
    ensures |cols| == Count(line, d) + 1
    ensures forall k :: 0 <= k < |cols| ==> d !in cols[k]
    ensures Join(cols, d) == line
  {
    JoinSplitOn(line, d);
    SplitOn(line, d)
  }

  /** The split is the only way to cut `line` into `d`-free pieces joined by `d`. */
  lemma SplitDefaultUnique(line: string, d: char, parts: seq<string>)
    requires |parts| >= 1
    requires forall k :: 0 <= k < |parts| ==> d !in parts[k]
    requires Join(parts, d) == line
    ensures SplitDefault(line, d) == parts
  {
    SplitOnJoin(parts, d);
  }

  /** Without quote characters the state machine stays unquoted and cuts at every comma. */
  lemma {:induction false} ScanPlain(s: string, acc: string, done: seq<string>)
    requires '"' !in s
    ensures Scan(s, false, acc, done) == done + [acc + SplitOn(s, ',')[0]] + SplitOn(s, ',')[1..]
    decreases |s|
  {
    var pieces := SplitOn(s, ',');
    if |s| == 0 {
      assert acc + "" == acc;
    } else {
      var rest := SplitOn(s[1..], ',');
      if s[0] == ',' {
        ScanPlain(s[1..], "", done + [acc]);
        assert "" + rest[0] == rest[0];
        assert pieces == [""] + rest;
        assert acc + "" == acc;
        assert pieces[1..] == rest;
        assert rest == [rest[0]] + rest[1..];
      } else {
        ScanPlain(s[1..], acc + [s[0]], done);
        assert pieces[0] == [s[0]] + rest[0];
        assert pieces[1..] == rest[1..];
        assert acc + [s[0]] + rest[0] == acc + pieces[0];
      }
    }
  }

  /**
   On a line with no `"`, `splitCSV` is the plain comma split: one column
   more than there are commas, and the columns joined by commas give the
   line back.
   */
  lemma SplitCsvWithoutQuotes(line: string)
    requires '"' !in line
    ensures SplitCsv(line) == SplitDefault(line, ',')
    ensures |SplitCsv(line)| == Count(line, ',') + 1
    ensures Join(SplitCsv(line), ',') == line
  {
    ScanPlain(line, "", []);
    var pieces := SplitOn(line, ',');
    assert "" + pieces[0] == pieces[0];
    assert [] + [pieces[0]] + pieces[1..] == pieces;
  }

  /** Writes one column as a CSV field: wrapped in `"`, every inner `"` doubled. */
  function EncodeField(col: string): string
  {
    ['"'] + Double(col, '"') + ['"']
  }

  /** Writes a row of columns as one comma-delimited line of quoted fields. */
  function EncodeRow(cols: seq<string>): string
  {
    Join(Map(EncodeField, cols), ',')
  }

  /** Inside a quoted section, one column character as written (a quote doubled) reads as itself. */
  lemma ScanQuotedChar(c: char, u: string, acc: string, done: seq<string>)
    ensures Scan((if c == '"' then ['"', '"'] else [c]) + u, true, acc, done) == Scan(u, true, acc + [c], done)
  {
  }

  /**
   Inside a quoted section, a doubled `"` reads as one `"`, commas are kept,
   and the `"` before a comma or the end of the line closes the section.
   */
  lemma {:induction false} ScanQuotedField(col: string, t: string, acc: string, done: seq<string>)
    requires t == [] || t[0] == ','
    ensures Scan(Double(col, '"') + ['"'] + t, true, acc, done) == Scan(t, false, acc + col, done)
    decreases |col|
  {
    if |col| == 0 {
      assert Double(col, '"') + ['"'] + t == ['"'] + t;
      assert acc + col == acc;
    } else {
      var c := col[0];
      var u := Double(col[1..], '"') + ['"'] + t;
      calc {
        Scan(Double(col, '"') + ['"'] + t, true, acc, done);
        { assert Double(col, '"') + ['"'] + t == (if c == '"' then ['"', '"'] else [c]) + u; }
        Scan((if c == '"' then ['"', '"'] else [c]) + u, true, acc, done);
        { ScanQuotedChar(c, u, acc, done); }
        Scan(u, true, acc + [c], done);
        { ScanQuotedField(col[1..], t, acc + [c], done); }
        Scan(t, false, acc + [c] + col[1..], done);
        { assert acc + [c] + col[1..] == acc + col; }
        Scan(t, false, acc + col, done);
      }
    }
  }

  /** A quoted field read from the unquoted state yields its column, left in the accumulator. */
  lemma ScanEncodedField(col: string, t: string, done: seq<string>)
    requires t == [] || t[0] == ','
    ensures Scan(EncodeField(col) + t, false, "", done) == Scan(t, false, col, done)
  {
    var s := EncodeField(col) + t;
    assert s == ['"'] + (Double(col, '"') + ['"'] + t);
    assert s[1..] == Double(col, '"') + ['"'] + t;
    ScanQuotedField(col, t, "", done);
    assert "" + col == col;
  }

  /** The encoding of a row of two or more columns starts with its first field and a comma. */
  lemma EncodeRowCons(cols: seq<string>)
    requires |cols| >= 2
    ensures EncodeRow(cols) == EncodeField(cols[0]) + [','] + EncodeRow(cols[1..])
  {
  }

  /** Dropping the last column commutes with splitting off the first. */
  lemma DropLastOfTail(done: seq<string>, cols: seq<string>)
    requires |cols| >= 2
    ensures done + [cols[0]] + cols[1..][..|cols| - 2] == done + cols[..|cols| - 1]
  {
  }

  /**
   Reading an encoded row leaves the machine unquoted, holding the last
   column, with all the others emitted.
   */
  lemma {:induction false} ScanEncodedRow(cols: seq<string>, t: string, done: seq<string>)
    requires |cols| >= 1
    requires t == [] || t[0] == ','
    ensures Scan(EncodeRow(cols) + t, false, "", done)
         == Scan(t, false, cols[|cols| - 1], done + cols[..|cols| - 1])
    decreases |cols|
  {
    if |cols| == 1 {
      assert EncodeRow(cols) == EncodeField(cols[0]);
      ScanEncodedField(cols[0], t, done);
      assert done + cols[..0] == done;
    } else {
      var c, rest := cols[0], cols[1..];
      var tail := EncodeRow(rest);
      calc {
        Scan(EncodeRow(cols) + t, false, "", done);
        { EncodeRowCons(cols);
          assert EncodeRow(cols) + t == EncodeField(c) + ([','] + (tail + t)); }
        Scan(EncodeField(c) + ([','] + (tail + t)), false, "", done);
        { ScanEncodedField(c, [','] + (tail + t), done); }
        Scan([','] + (tail + t), false, c, done);
        Scan(tail + t, false, "", done + [c]);
        { ScanEncodedRow(rest, t, done + [c]); }
        Scan(t, false, rest[|rest| - 1], done + [c] + rest[..|rest| - 1]);
        { DropLastOfTail(done, cols); }
        Scan(t, false, cols[|cols| - 1], done + cols[..|cols| - 1]);
      }
    }
  }

  /** Round trip: `splitCSV` reads back every row written as quoted fields. */
  lemma SplitCsvEncodeRow(cols: seq<string>)
    requires |cols| >= 1
    ensures SplitCsv(EncodeRow(cols)) == cols
  {
    ScanEncodedRow(cols, [], []);
    assert EncodeRow(cols) + [] == EncodeRow(cols);
    assert [] + cols[..|cols| - 1] + [cols[|cols| - 1]] == cols;
  }

  /**
   Writes one column as a CSV field, quoting it only when it must be: a
   column holding `"` or `,` is quoted, every other column is written as it
   stands.
   */
  function EncodeFieldMin(col: string): string
  {
    if '"' in col || ',' in col then EncodeField(col) else col
  }

  /** Writes a row of columns as one comma-delimited line, quoting only the fields that need it. */
  function EncodeRowMin(cols: seq<string>): string
  {
    Join(Map(EncodeFieldMin, cols), ',')
  }

  /** A field written with quoting only where needed yields its column, left in the accumulator. */
  lemma ScanMinField(col: string, t: string, done: seq<string>)
    requires t == [] || t[0] == ','
    ensures Scan(EncodeFieldMin(col) + t, false, "", done) == Scan(t, false, col, done)
  {
    if '"' in col || ',' in col {
      ScanEncodedField(col, t, done);
    } else {
      ScanPlainField(col, t, "", done);
      assert "" + col == col;
    }
  }

  /** The minimally quoted encoding of two or more columns starts with its first field and a comma. */
  lemma EncodeRowMinCons(cols: seq<string>)
    requires |cols| >= 2
    ensures EncodeRowMin(cols) == EncodeFieldMin(cols[0]) + [','] + EncodeRowMin(cols[1..])
  {
    assert Map(EncodeFieldMin, cols)[1..] == Map(EncodeFieldMin, cols[1..]);
  }

  /**
   Reading a minimally quoted row leaves the machine unquoted, holding the
   last column, with all the others emitted.
   */
  lemma {:induction false} ScanMinRow(cols: seq<string>, t: string, done: seq<string>)
    requires |cols| >= 1
    requires t == [] || t[0] == ','
    ensures Scan(EncodeRowMin(cols) + t, false, "", done)
         == Scan(t, false, cols[|cols| - 1], done + cols[..|cols| - 1])
    decreases |cols|
  {
    if |cols| == 1 {
      assert EncodeRowMin(cols) == EncodeFieldMin(cols[0]);
      ScanMinField(cols[0], t, done);
      assert done + cols[..0] == done;
    } else {
      var c, rest := cols[0], cols[1..];
      var tail := EncodeRowMin(rest);
      calc {
        Scan(EncodeRowMin(cols) + t, false, "", done);
        { EncodeRowMinCons(cols);
          assert EncodeRowMin(cols) + t == EncodeFieldMin(c) + ([','] + (tail + t)); }
        Scan(EncodeFieldMin(c) + ([','] + (tail + t)), false, "", done);
        { ScanMinField(c, [','] + (tail + t), done); }
        Scan([','] + (tail + t), false, c, done);
        Scan(tail + t, false, "", done + [c]);
        { ScanMinRow(rest, t, done + [c]); }
        Scan(t, false, rest[|rest| - 1], done + [c] + rest[..|rest| - 1]);
        { DropLastOfTail(done, cols); }
        Scan(t, false, cols[|cols| - 1], done + cols[..|cols| - 1]);
      }
    }
  }

  /**
   Round trip for mixed rows: `splitCSV` reads back every row written with
   only the columns holding `"` or `,` quoted and the others left plain.
   */
  lemma SplitCsvMinRoundTrip(cols: seq<string>)
    requires |cols| >= 1
    ensures SplitCsv(EncodeRowMin(cols)) == cols
  {
    ScanMinRow(cols, [], []);
    assert EncodeRowMin(cols) + [] == EncodeRowMin(cols);
    assert [] + cols[..|cols| - 1] + [cols[|cols| - 1]] == cols;
  }

  /**
   Writes one column as a CSV field, quoted when the writer chooses to (`q`)
   and always when it must be, because the column holds `"` or `,`.
   */
  function EncodeFieldAs(q: bool, col: string): string
  {
    if q || '"' in col || ',' in col then EncodeField(col) else col
  }

  /** Writes a row of columns as one comma-delimited line, field `k` quoted as `qs[k]` chooses. */
  function EncodeRowAs(qs: seq<bool>, cols: seq<string>): string
    requires |qs| == |cols|
  {
    if |cols| == 0 then ""
    else if |cols| == 1 then EncodeFieldAs(qs[0], cols[0])
    else EncodeFieldAs(qs[0], cols[0]) + [','] + EncodeRowAs(qs[1..], cols[1..])
  }

  /** A field written with or without quotes yields its column, left in the accumulator. */
  lemma ScanFieldAs(q: bool, col: string, t: string, done: seq<string>)
    requires t == [] || t[0] == ','
    ensures Scan(EncodeFieldAs(q, col) + t, false, "", done) == Scan(t, false, col, done)
  {
    if q || '"' in col || ',' in col {
      ScanEncodedField(col, t, done);
    } else {
      ScanPlainField(col, t, "", done);
      assert "" + col == col;
    }
  }

  /**
   Reading a row written with any choice of quoting leaves the machine
   unquoted, holding the last column, with all the others emitted.
   */
  lemma {:induction false} ScanRowAs(qs: seq<bool>, cols: seq<string>, t: string, done: seq<string>)
    requires |qs| == |cols| >= 1
    requires t == [] || t[0] == ','
    ensures Scan(EncodeRowAs(qs, cols) + t, false, "", done)
         == Scan(t, false, cols[|cols| - 1], done + cols[..|cols| - 1])
    decreases |cols|
  {
    if |cols| == 1 {
      ScanFieldAs(qs[0], cols[0], t, done);
      assert done + cols[..0] == done;
    } else {
      var c, rest := cols[0], cols[1..];
      var tail := EncodeRowAs(qs[1..], rest);
      calc {
        Scan(EncodeRowAs(qs, cols) + t, false, "", done);
        { assert EncodeRowAs(qs, cols) + t == EncodeFieldAs(qs[0], c) + ([','] + (tail + t)); }
        Scan(EncodeFieldAs(qs[0], c) + ([','] + (tail + t)), false, "", done);
        { ScanFieldAs(qs[0], c, [','] + (tail + t), done); }
        Scan([','] + (tail + t), false, c, done);
        Scan(tail + t, false, "", done + [c]);
        { ScanRowAs(qs[1..], rest, t, done + [c]); }
        Scan(t, false, rest[|rest| - 1], done + [c] + rest[..|rest| - 1]);
        { DropLastOfTail(done, cols); }
        Scan(t, false, cols[|cols| - 1], done + cols[..|cols| - 1]);
      }
    }
  }

  /**
   Round trip for any quoting: `splitCSV` reads back every row written with
   any choice of which fields to quote, as long as the fields holding `"`
   or `,` are quoted.
   */
  lemma SplitCsvAnyQuotingRoundTrip(qs: seq<bool>, cols: seq<string>)
    requires |qs| == |cols| >= 1
    ensures SplitCsv(EncodeRowAs(qs, cols)) == cols
  {
    ScanRowAs(qs, cols, [], []);
    assert EncodeRowAs(qs, cols) + [] == EncodeRowAs(qs, cols);
    assert [] + cols[..|cols| - 1] + [cols[|cols| - 1]] == cols;
  }

  /** A field that needs no quotes may still be quoted: `"a",b` gives `a` and `b`. */
  lemma SplitCsvNeedlessQuoteExample()
    ensures SplitCsv("\"a\",b") == ["a", "b"]
  {
    assert EncodeRowAs([true, false], ["a", "b"]) == "\"a\",b" by {
      assert Double("a", '"') == "a" by { DoubleLength("a", '"'); }
      assert EncodeFieldAs(true, "a") == "\"a\"";
      assert EncodeFieldAs(false, "b") == "b";
    }
    SplitCsvAnyQuotingRoundTrip([true, false], ["a", "b"]);
  }

  /**
   An unterminated quoted section runs to the end of the line, commas
   included; a doubled quote in it still reads as one quote.
   */
  lemma {:induction false} ScanOpenDoubled(v: string, acc: string, done: seq<string>)
    ensures Scan(Double(v, '"'), true, acc, done) == done + [acc + v]
    decreases |v|
  {
    if |v| == 0 {
      assert acc + v == acc;
    } else {
      var c, u := v[0], Double(v[1..], '"');
      calc {
        Scan(Double(v, '"'), true, acc, done);
        { assert Double(v, '"') == (if c == '"' then ['"', '"'] else [c]) + u; }
        Scan((if c == '"' then ['"', '"'] else [c]) + u, true, acc, done);
        { ScanQuotedChar(c, u, acc, done); }
        Scan(u, true, acc + [c], done);
        { ScanOpenDoubled(v[1..], acc + [c], done); }
        done + [acc + [c] + v[1..]];
        { assert acc + [c] + v[1..] == acc + v; }
        done + [acc + v];
      }
    }
  }

  /** Quote-free text in an unterminated quoted section is collected as it stands. */
  lemma ScanUnterminated(t: string, acc: string, done: seq<string>)
    requires '"' !in t
    ensures Scan(t, true, acc, done) == done + [acc + t]
  {
    DoubleLength(t, '"');
    ScanOpenDoubled(t, acc, done);
  }

  /**
   Leniency: a line whose last field opens a quote that never closes is not
   an error; the text after the quote, its doubled quotes read as one,
   becomes the final column.
   */
  lemma SplitCsvUnterminated(cols: seq<string>, v: string)
    requires |cols| >= 1
    ensures SplitCsv(EncodeRow(cols) + [',', '"'] + Double(v, '"')) == cols + [v]
  {
    var t := Double(v, '"');
    var t' := [',', '"'] + t;
    ScanEncodedRow(cols, t', []);
    assert EncodeRow(cols) + [',', '"'] + t == EncodeRow(cols) + t';
    var init := [] + cols[..|cols| - 1];
    assert t'[1..] == ['"'] + t;
    assert (['"'] + t)[1..] == t;
    assert init + [cols[|cols| - 1]] == cols;
    ScanOpenDoubled(v, "", cols);
    assert "" + v == v;
  }

  /**
   After unquoted text, a comma and a quote that never closes: the text is
   cut at its commas and the text after the quote, its doubled quotes read
   as one, is one more column.
   */
  lemma {:induction false} ScanPlainThenUnterminated(p: string, v: string, acc: string, done: seq<string>)
    requires '"' !in p
    ensures Scan(p + [',', '"'] + Double(v, '"'), false, acc, done)
         == done + [acc + SplitOn(p, ',')[0]] + SplitOn(p, ',')[1..] + [v]
    decreases |p|
  {
    var t := Double(v, '"');
    var pieces := SplitOn(p, ',');
    if |p| == 0 {
      var s := [',', '"'] + t;
      assert p + [',', '"'] + t == s;
      assert s[1..] == ['"'] + t && (['"'] + t)[1..] == t;
      ScanOpenDoubled(v, "", done + [acc]);
      assert "" + v == v && acc + "" == acc;
    } else {
      var rest := SplitOn(p[1..], ',');
      assert (p + [',', '"'] + t)[1..] == p[1..] + [',', '"'] + t;
      if p[0] == ',' {
        ScanPlainThenUnterminated(p[1..], v, "", done + [acc]);
        assert "" + rest[0] == rest[0];
        assert pieces == [""] + rest;
        assert acc + "" == acc;
        assert pieces[1..] == rest;
        assert rest == [rest[0]] + rest[1..];
      } else {
        ScanPlainThenUnterminated(p[1..], v, acc + [p[0]], done);
        assert pieces[0] == [p[0]] + rest[0];
        assert pieces[1..] == rest[1..];
        assert acc + [p[0]] + rest[0] == acc + pieces[0];
      }
    }
  }

  /**
   Leniency after unquoted columns: a line of quote-free columns, then a
   comma and a quote that never closes, gives those columns as a plain comma
   split and the text after the quote, commas included and its doubled
   quotes read as one, as the last column.
   */
  lemma SplitCsvUnterminatedAfterPlain(p: string, v: string)
    requires '"' !in p
    ensures SplitCsv(p + [',', '"'] + Double(v, '"')) == SplitDefault(p, ',') + [v]
  {
    ScanPlainThenUnterminated(p, v, "", []);
    var pieces := SplitOn(p, ',');
    assert "" + pieces[0] == pieces[0];
    assert [] + [pieces[0]] + pieces[1..] == pieces;
  }

  /** The usual unterminated case: `a,"b,c` gives `a` and `b,c`. */
  lemma SplitCsvUnterminatedExample()
    ensures SplitCsv("a,\"b,c") == ["a", "b,c"]
  {
    DoubleLength("b,c", '"');
    assert "a,\"b,c" == "a" + [',', '"'] + Double("b,c", '"');
    SplitCsvUnterminatedAfterPlain("a", "b,c");
    assert SplitDefault("a", ',') == ["a"];
    assert ["a"] + ["b,c"] == ["a", "b,c"];
  }

  /** A doubled quote in an unterminated section is one quote: `a,"b""c` gives `a` and `b"c`. */
  lemma SplitCsvUnterminatedDoubledExample()
    ensures SplitCsv("a,\"b\"\"c") == ["a", "b\"c"]
  {
    assert Double("b\"c", '"') == "b\"\"c" by {
      assert "b\"c" == ['b'] + (['"'] + ['c']);
      assert ['c'][1..] == [];
    }
    assert "a,\"b\"\"c" == "a" + [',', '"'] + Double("b\"c", '"');
    SplitCsvUnterminatedAfterPlain("a", "b\"c");
    assert SplitDefault("a", ',') == ["a"];
    assert ["a"] + ["b\"c"] == ["a", "b\"c"];
  }

  /**
   A quote opening the line and never closed swallows the whole line as one
   column, its doubled quotes read as one.
   */
  lemma SplitCsvOpenQuote(v: string)
    ensures SplitCsv(['"'] + Double(v, '"')) == [v]
  {
    assert (['"'] + Double(v, '"'))[1..] == Double(v, '"');
    ScanOpenDoubled(v, "", []);
    assert "" + v == v;
  }

  /** A column free of quotes and commas is collected as it stands. */
  lemma {:induction false} ScanPlainField(p: string, t: string, acc: string, done: seq<string>)
    requires '"' !in p && ',' !in p
    ensures Scan(p + t, false, acc, done) == Scan(t, false, acc + p, done)
    decreases |p|
  {
    if |p| == 0 {
      assert p + t == t && acc + p == acc;
    } else {
      assert (p + t)[1..] == p[1..] + t;
      ScanPlainField(p[1..], t, acc + [p[0]], done);
      assert acc + [p[0]] + p[1..] == acc + p;
    }
  }

  /** Commas separate columns. */
  lemma SplitCsvPlainExample()
    ensures SplitCsv("a,b,c") == ["a", "b", "c"]
  {
    calc {
      SplitCsv("a,b,c");
      { assert "a,b,c" == ['a'] + ([','] + (['b'] + ([','] + ['c']))); }
      Scan(['a'] + ([','] + (['b'] + ([','] + ['c']))), false, "", []);
      { assert "" + ['a'] == "a"; }
      Scan([','] + (['b'] + ([','] + ['c'])), false, "a", []);
      { assert [] + ["a"] == ["a"]; }
      Scan(['b'] + ([','] + ['c']), false, "", ["a"]);
      { assert "" + ['b'] == "b"; }
      Scan([','] + ['c'], false, "b", ["a"]);
      { assert ["a"] + ["b"] == ["a", "b"]; }
      Scan(['c'], false, "", ["a", "b"]);
      { assert "" + ['c'] == "c"; assert ['c'][1..] == []; }
      ["a", "b", "c"];
    }
  }

  /** A comma inside a quoted section is kept in the column. */
  lemma SplitCsvQuotedCommaExample()
    ensures SplitCsv("a,\"b,c\",d") == ["a", "b,c", "d"]
  {
    var tail := ['"'] + ([','] + ['d']);
    calc {
      SplitCsv("a,\"b,c\",d");
      { assert "a,\"b,c\",d" == ['a'] + ([','] + (['"'] + ("b,c" + tail))); }
      Scan(['a'] + ([','] + (['"'] + ("b,c" + tail))), false, "", []);
      { assert "" + ['a'] == "a"; }
      Scan([','] + (['"'] + ("b,c" + tail)), false, "a", []);
      { assert [] + ["a"] == ["a"]; }
      Scan(['"'] + ("b,c" + tail), false, "", ["a"]);
      Scan("b,c" + tail, true, "", ["a"]);
      { DoubleLength("b,c", '"');
        assert "b,c" + tail == Double("b,c", '"') + ['"'] + ([','] + ['d']);
        ScanQuotedField("b,c", [','] + ['d'], "", ["a"]);
        assert "" + "b,c" == "b,c"; }
      Scan([','] + ['d'], false, "b,c", ["a"]);
      { assert ["a"] + ["b,c"] == ["a", "b,c"]; }
      Scan(['d'], false, "", ["a", "b,c"]);
      { assert "" + ['d'] == "d"; assert ['d'][1..] == []; }
      ["a", "b,c", "d"];
    }
  }

  /** A doubled quote inside a quoted section is one literal quote. */
  lemma SplitCsvDoubledQuoteExample()
    ensures SplitCsv("a,\"b\"\"c\",d") == ["a", "b\"c", "d"]
  {
    var tail := ['"'] + ([','] + ['d']);
    var body := ['b'] + (['"', '"'] + ['c']);
    calc {
      SplitCsv("a,\"b\"\"c\",d");
      { assert "a,\"b\"\"c\",d" == ['a'] + ([','] + (['"'] + (body + tail))); }
      Scan(['a'] + ([','] + (['"'] + (body + tail))), false, "", []);
      { assert "" + ['a'] == "a"; }
      Scan([','] + (['"'] + (body + tail)), false, "a", []);
      { assert [] + ["a"] == ["a"]; }
      Scan(['"'] + (body + tail), false, "", ["a"]);
      Scan(body + tail, true, "", ["a"]);
      { assert Double("b\"c", '"') == body by {
          assert "b\"c" == ['b'] + (['"'] + ['c']);
          assert ['c'][1..] == [];
        }
        assert body + tail == Double("b\"c", '"') + ['"'] + ([','] + ['d']);
        ScanQuotedField("b\"c", [','] + ['d'], "", ["a"]);
        assert "" + "b\"c" == "b\"c"; }
      Scan([','] + ['d'], false, "b\"c", ["a"]);
      { assert ["a"] + ["b\"c"] == ["a", "b\"c"]; }
      Scan(['d'], false, "", ["a", "b\"c"]);
      { assert "" + ['d'] == "d"; assert ['d'][1..] == []; }
      ["a", "b\"c", "d"];
    }
  }

  /** A quote in the middle of a column also opens a quoted section. */
  lemma SplitCsvMidColumnQuoteExample()
    ensures SplitCsv("ab\"c,d") == ["abc,d"]
  {
    calc {
      SplitCsv("ab\"c,d");
      { assert "ab\"c,d" == "ab" + (['"'] + "c,d"); }
      Scan("ab" + (['"'] + "c,d"), false, "", []);
      { ScanPlainField("ab", ['"'] + "c,d", "", []); assert "" + "ab" == "ab"; }
      Scan(['"'] + "c,d", false, "ab", []);
      Scan("c,d", true, "ab", []);
      { ScanUnterminated("c,d", "ab", []); assert "ab" + "c,d" == "abc,d"; }
      ["abc,d"];
    }
  }

  /** Inside a quoted section, a quote followed by another character is kept. */
  lemma SplitCsvLoneQuoteExample()
    ensures SplitCsv("\"a\"b,c") == ["a\"b,c"]
  {
    calc {
      SplitCsv("\"a\"b,c");
      { assert "\"a\"b,c" == ['"'] + (['a'] + (['"'] + "b,c")); }
      Scan(['"'] + (['a'] + (['"'] + "b,c")), false, "", []);
      Scan(['a'] + (['"'] + "b,c"), true, "", []);
      { assert "" + ['a'] == "a"; }
      Scan(['"'] + "b,c", true, "a", []);
      { assert (['"'] + "b,c")[1] == 'b'; assert "a" + ['"'] == "a\""; }
      Scan("b,c", true, "a\"", []);
      { ScanUnterminated("b,c", "a\"", []); assert "a\"" + "b,c" == "a\"b,c"; }
      ["a\"b,c"];
    }
  }

  /** Other delimiters split naively: quotes do not protect them. */
  lemma SplitDefaultExamples()
    ensures SplitDefault("a;b;c", ';') == ["a", "b", "c"]
    ensures SplitDefault("\"a;b\";c", ';') == ["\"a", "b\"", "c"]
  {
    var p1 := ["a", "b", "c"];
    assert Join(p1, ';') == "a;b;c" by {
      assert p1[1..] == ["b", "c"];
      assert p1[1..][1..] == ["c"];
    }
    SplitDefaultUnique("a;b;c", ';', p1);
    var p2 := ["\"a", "b\"", "c"];
    assert Join(p2, ';') == "\"a;b\";c" by {
      assert p2[1..] == ["b\"", "c"];
      assert p2[1..][1..] == ["c"];
    }
    SplitDefaultUnique("\"a;b\";c", ';', p2);
  }
}

=== FILE: wrappers.dfy ===
/** Failure-carrying result types shared by the other modules. */
module Wrappers {

  /** A value that may be absent; `None` stands for input that does not parse. */
  datatype Option<+T> = None | Some(value: T)

  /** The outcome of an operation that can fail with an error of type `E`. */
  datatype Result<+T, +E> = Ok(value: T) | Err(error: E)
}
